=== FILE: README.md ===
# Custodial Aptos wallet bot: account and import state machine

This project models the per-user account logic of a Telegram bot that keeps
a custodial Aptos wallet for every chat user and hands the user's requests
to an on-chain AI agent. Two alternative entry points, `bot.js` and
`index.js`, share one MongoDB `users` collection. With Telegram, MongoDB,
LangChain and the Aptos SDK abstracted away, every handler is a pure
transition of a small keyed state:

- the `users` collection is a `map<UserId, UserRecord>`; `alertsEnabled`
  (written by bot.js) and `inProgress` / `inGame` (written by index.js) are
  optional fields, since a document written by one entry point lacks the
  other's fields;
- index.js's in-memory `userImportState` map is a set of awaited users
  (the only value it ever holds is `true`);
- each handler returns an `Outcome`: the new state, the messages it sends
  (chat id plus an abstract reply), the agent run it starts (thread id,
  signer, text) and the exception that aborted it, if any;
- Ed25519 key generation, decoding, canonical printing and public-key
  derivation are the uninterpreted function fields of a `Crypto` value.
  `Keys.Sound` collects what the bot relies on from the library: an
  accepted 64-hex-digit string decodes (it is a 32-byte secret key as in
  section 5.1.5 of RFC 8032), generated keys decode, and the canonical form
  re-decodes to the same key. `Keys.CaseBlind` adds that two accepted
  strings spelling the same 32 bytes (differing only in letter case) print
  and derive alike;
- the agent's reply is a given finite sequence of stream chunks, fed to the
  filter that decides which chunks become replies.

Modules: `Wrappers` (Option, Result), `HexKey` (the import validator and
hex decoding), `Keys` (crypto), `Accounts` (the collection, get-or-create,
upsert), `Telegram` (replies), `AgentStream` (chunk filter), `Session`
(state and outcome), `BotJs` and `IndexJs` (the handlers of each file),
`System` (both handler sets driven by a sequence of updates), `Scenarios`
(concrete end-to-end update sequences).

Where the behaviour intended for the system differs from the code, the
model follows the code:

- An invalid key while awaited returns before the flag is deleted
  (index.js:101-103), so import is retry-until-valid, not single-shot
  (`System.InvalidAttemptsChangeNothing`).
- A successful import does not return (index.js:119-121), so the key text
  itself is then given to the agent as a conversational turn
  (`IndexJs.ImportedKeyReachesAgent`).
- Alerts are toggled, not set (bot.js:151); a document without the field
  toggles to `true`, as JavaScript's `!undefined` does.
- A stored key that fails to decode makes get-or-create throw; nothing is
  regenerated (`Accounts.GetOrCreate`).

## Model

| member | source | states |
|---|---|---|
| HexKey.MatchesKeyPattern | index.js:100 | The anchored pattern accepts a string exactly when it has 64 characters, each in `[0-9a-fA-F]`. |
| HexKey.SecretKeyRoundTrip | index.js:100-105 | Every 32-byte secret key written in lower-case hex passes the validator and decodes back to the same bytes. |
| HexKey.SameKeyIffSameDigits | index.js:100-105 | Two accepted import strings denote the same 32-byte key if and only if they are equal up to letter case. |
| Keys.FromPrivateKey | bot.js:30-33 | Rebuilding an account from key text succeeds exactly when the library accepts the text; under the library assumptions the rebuilt pair is consistent. |
| Keys.Generate | bot.js:37 | Under the library assumptions a generated account's printed key pair is consistent. |
| Keys.ReloadAccount | bot.js:30-34 | Decoding the private key of a consistent account gives back exactly that account. |
| Accounts.GetOrCreate | bot.js:25-46 | An existing document is left as is and its key is decoded (failure exactly when it does not decode, never a new key); otherwise exactly one document is added for the user; no other user's document changes; a consistent store stays consistent and the returned signer is the stored pair. |
| Accounts.NewRecord | bot.js:38-43 | The document a fresh account gets carries the generated key pair; from bot.js it has alerts off and no status flags, from index.js (index.js:39-45) both status flags false and no alerts field. |
| Accounts.Upsert | index.js:108-117 | The import update sets the user's key pair and both status flags to false, keeps `alertsEnabled`, inserts when absent, and leaves every other document alone. |
| Accounts.GetOrCreateIdempotent | bot.js:27-45 | A second get-or-create, from either entry point, writes nothing and returns the same outcome as the first: the same wallet, or the same failure on a corrupt stored key. |
| Accounts.GetOrCreateLocal | index.js:28-47 | Get-or-create depends on the user's own document only. |
| AgentStream.Forwarded | bot.js:173-184 | At most one reply per chunk, and no forwarded text is empty. |
| AgentStream.ForwardedExactly | bot.js:173-184 | The forwarded texts are, in stream order, exactly the first-message contents of the agent chunks whose content is non-empty; no such chunk is skipped. |
| AgentStream.ForwardedAppend | bot.js:173-184 | Filtering a stream piecewise as it arrives gives the same replies as filtering it whole. |
| AgentStream.ForwardStream | index.js:124-128 | The `for await` loop sends exactly the filtered texts. |
| BotJs.GetOrCreateUserWallet | bot.js:25-46 | Returns the stored address of an existing document without writing; otherwise inserts one document with alerts off whose address is the returned one and derived from its private key. |
| BotJs.SameAddressTwice | bot.js:27-45 | Two sequential calls return the same address and the second writes nothing, whenever the user's own stored key (if any) decodes. |
| BotJs.Start | bot.js:73-89 | `/start` creates the wallet if absent, touches no other user, and greets with the stored address; on a consistent store it never aborts. |
| BotJs.ViewPrivateKey | bot.js:105-120 | Read-only; the key is revealed exactly when the user has a document, only by direct message to the user's own chat, and it is the stored key; otherwise a "no key" reply. |
| BotJs.ViewWallet | bot.js:124-138 | Read-only; replies in the originating chat with the stored address when there is a document, "no wallet" otherwise, and never reveals the key. |
| BotJs.ToggleAlerts | bot.js:141-160 | With a document, stores the negation of the current flag (missing reads as false) and changes no other field or user; without one, changes nothing and replies "no account". |
| BotJs.ToggleTwice | bot.js:151-152 | Toggling twice restores the flag's truth value, and the whole state when the flag was stored. |
| BotJs.OnText | bot.js:163-185 | A text leaves a document for the user, runs the agent on the user's thread with the signer decoded from the stored key (or the freshly generated one) and the user's text, and replies with exactly the filtered chunks; it aborts exactly when the stored key does not decode, without writing. |
| IndexJs.GetOrCreateUserWallet | index.js:28-47 | A new document has `inProgress` and `inGame` false and no alerts field, and `false` is returned; an existing one's stored `inProgress` is returned unchanged without writing. |
| IndexJs.Start | index.js:70-80 | `/start` never writes and shows the create/import menu if and only if the user has no document. |
| IndexJs.CreateAccount | index.js:82-87 | Creates the document only if absent, touches no other user, fails exactly when a stored key does not decode, and reports the address derived from the stored private key (the stored address on a consistent store, the new one for a new document). |
| IndexJs.ImportAccount | index.js:89-94 | Sets the import flag of this user only and leaves the collection alone. |
| IndexJs.Converse | index.js:121-128 | The conversational path keeps the earlier replies, runs the agent on the user's own thread with the stored signer, and appends the filtered chunks. |
| IndexJs.OnText | index.js:96-129 | While awaited, a non-key text changes nothing, keeps the flag and starts no agent; a key is upserted with derived public key and flags false (keeping `alertsEnabled`), the flag is cleared, and the replies are the import confirmation followed by the filtered agent chunks in the originating chat; when not awaited the text goes straight to the conversational path. |
| IndexJs.ImportThenGetOrCreate | index.js:108-121 | After an import, get-or-create from either entry point returns the imported account and writes nothing: import overwrites any earlier key, including one that no longer decodes. |
| IndexJs.ImportedKeyReachesAgent | index.js:118-123 | After a successful import the agent is run with the imported signer and with the key text as the user message. |
| IndexJs.ImportIgnoresLetterCase | index.js:100-117 | Importing the upper-case and the lower-case spelling of one key leaves the same document and flag, sends the same replies and gives the agent the same signer. |
| IndexJs.DispatchIgnoresOtherFlags | index.js:99 | Other users' import flags have no effect on how a text is handled. |
| System.StepWellFormed | bot.js:37-43 | Every handler keeps each stored public key derived from its stored private key, and on such a store no handler aborts. |
| System.RunWellFormed | index.js:104-117 | The key-pair invariant holds after any sequence of updates to either entry point. |
| System.KeyGoesOnlyToOwner | bot.js:108-117 | For any update, every private-key notice goes to the sender's own chat and carries the sender's stored key. |
| System.StepFrame | bot.js:141-152 | An update changes only its sender's document and import flag. |
| System.StepLocal | index.js:96-129 | An update's replies, agent run and effect on its sender depend only on the sender's document and flag. |
| System.IndexTextLocal | index.js:99-121 | The index.js text handler depends only on the sender's document and flag. |
| System.RunIsolation | index.js:89-129 | After any interleaving of updates, a user's document and flag are what that user's own updates alone produce. |
| System.InvalidAttemptsChangeNothing | index.js:99-103 | While awaited, any number of non-key texts leave the state, flag included, unchanged. |
| Scenarios.FirstContact | bot.js:73-89 | A fresh user's `/start` creates a document with alerts off and greets with the generated address. |
| Scenarios.TypoThenImport | index.js:89-120 | Import, then "abc" (refused, still awaited, nothing written), then the key "11" repeated 32 times (stored address derived from it, no longer awaited). |

## Left out

- Telegram transport: HTML formatting, inline keyboards, the `settings` menu action (bot.js:92-102, a reply with buttons only), `answerCbQuery`, the typing indicator and `reply_to_message_id`; replies are abstract events and sending never fails.
- MongoDB connection and driver semantics (`connectDB`, wire protocol); the collection is a functional map.
- The find-then-insert race of get-or-create under concurrent first contact: handlers run one at a time.
- Ed25519 generation, decoding, derivation and `PrivateKey.formatPrivateKey`: uninterpreted functions; `Keys.Sound` states what is assumed of them.
- `initializeAgent`: the language model, its settings, the Move Agent Kit tools and their network calls, and the `MemorySaver` checkpoints; an agent run is recorded as thread id, signer and text, and its answer is a given chunk sequence.
- Exceptions thrown by the agent stream or by Telegram sends; only the key-decoding exception is modelled.
- Chunk content that is an array of parts (always truthy in JavaScript); content is modelled as a string.
- `userImportState` being lost on restart; the flags are part of the modelled state.
- Environment configuration, API keys and `bot.launch`.
- System.KeyGoesOnlyToOwner: covers private-key notices only; the agent call and the agent's replies are outside the statement, and after an import in index.js the agent is given the key text (`IndexJs.ImportedKeyReachesAgent`), and the agent's conversation memory for the user keeps that text, so that reply and any later agent reply to the user, in any chat, may echo the key.

=== FILE: accounts.dfy ===
/** The `users` collection both entry points share: one document per chat
    user, created by get-or-create and overwritten by import. bot.js
    writes `alertsEnabled`, index.js writes `inProgress` and `inGame`, so
    those fields are optional; a field a document lacks reads as
    `undefined` in the handlers. */
module Accounts {
  import opened Wrappers
  import opened Keys

  /** `ctx.from.id.toString()`. */
  type UserId = string

  datatype UserRecord = UserRecord(
    publicKey: string,
    privateKey: string,
    alertsEnabled: Option<bool>,
    inProgress: Option<bool>,
    inGame: Option<bool>)

  type Store = map<UserId, UserRecord>

  /** Which entry point's `insertOne` shapes a newly created document. */
  datatype EntryPoint = BotJs | IndexJs

  datatype KeyDecodeError = KeyDecodeError(userId: UserId)

  /** What get-or-create hands back: the signer and the document it came
      from (bot.js reads `publicKey` of it, index.js `inProgress`). */
  datatype Wallet = Wallet(account: Account, record: UserRecord)

  /** The store after a get-or-create, and its outcome. */
  datatype Lookup = Lookup(store: Store, wallet: Result<Wallet, KeyDecodeError>)

  function KeyPair(r: UserRecord): Account {
    Account(r.privateKey, r.publicKey)
  }

  /** Every stored key pair agrees with itself (public key derived from
      the canonical private key). */
  ghost predicate WellFormed(c: Crypto, st: Store) {
    forall u :: u in st ==> Valid(c, KeyPair(st[u]))
  }

  /** No user other than `u` gains, loses or changes a document. */
  ghost predicate SameOutside(u: UserId, st: Store, st': Store) {
    forall v :: v != u ==> (v in st <==> v in st') && (v in st ==> st'[v] == st[v])
  }

  /** `u`'s document is the same in both stores (or absent from both). */
  predicate SameFor(u: UserId, st1: Store, st2: Store) {
    (u in st1 <==> u in st2) && (u in st1 ==> st1[u] == st2[u])
  }

  /** The document `insertOne` writes for a fresh account. */
  function NewRecord(entry: EntryPoint, a: Account): (r: UserRecord)
    ensures KeyPair(r) == a
    ensures entry == BotJs ==> r.alertsEnabled == Some(false) && r.inProgress.None? && r.inGame.None?
    ensures entry == IndexJs ==> r.alertsEnabled.None? && r.inProgress == Some(false) && r.inGame == Some(false)
  {
    match entry
    case BotJs => UserRecord(a.publicKey, a.privateKey, Some(false), None, None)
    case IndexJs => UserRecord(a.publicKey, a.privateKey, None, Some(false), Some(false))
  }

  /** `getOrCreateUserWallet`: find the document; if there is one, rebuild
      the signer from its private key (a malformed key throws and nothing
      is created); otherwise generate an account and insert it. */
  function GetOrCreate(c: Crypto, st: Store, u: UserId, e: Entropy, entry: EntryPoint): (r: Lookup)
    ensures u in r.store && SameOutside(u, st, r.store)
    ensures u in st ==> r.store == st
    ensures u in st ==> (r.wallet.Success? <==> c.decodes(st[u].privateKey))
    ensures u in st && r.wallet.Success? ==>
              && r.wallet.value.record == st[u]
              && r.wallet.value.account.publicKey == c.derive(st[u].privateKey)
    ensures u !in st ==>
              && r.wallet.Success?
              && r.store.Keys == st.Keys + {u}
              && r.store[u] == r.wallet.value.record == NewRecord(entry, r.wallet.value.account)
    ensures Sound(c) && WellFormed(c, st) ==>
              && WellFormed(c, r.store)
              && r.wallet.Success?
              && r.wallet.value.account == KeyPair(r.store[u])
  {
    if u in st then
      match FromPrivateKey(c, st[u].privateKey)
      case Some(a) => Lookup(st, Success(Wallet(a, st[u])))
      case None => Lookup(st, Failure(KeyDecodeError(u)))
    else
      var a := Generate(c, e);
      var rec := NewRecord(entry, a);
      Lookup(st[u := rec], Success(Wallet(a, rec)))
  }

  /** The import `updateOne` with `upsert: true`: `$set` the key pair and
      clear both status flags; a field outside `$set` (`alertsEnabled`)
      keeps its stored value, and an inserted document has none. */
  function Upsert(st: Store, u: UserId, a: Account): (r: Store)
    ensures r.Keys == st.Keys + {u} && SameOutside(u, st, r)
    ensures KeyPair(r[u]) == a
    ensures r[u].inProgress == Some(false) && r[u].inGame == Some(false)
    ensures r[u].alertsEnabled == (if u in st then st[u].alertsEnabled else None)
  {
    if u in st then
      st[u := st[u].(publicKey := a.publicKey, privateKey := a.privateKey,
                     inProgress := Some(false), inGame := Some(false))]
    else
      st[u := UserRecord(a.publicKey, a.privateKey, None, Some(false), Some(false))]
  }

  /** Get-or-create is idempotent: a second call finds what the first one
      left, changes nothing more and returns the same outcome (the same
      account, or the same decoding failure of a corrupt stored key). */
  lemma GetOrCreateIdempotent(c: Crypto, st: Store, u: UserId, e1: Entropy, e2: Entropy,
                              entry1: EntryPoint, entry2: EntryPoint)
    requires Sound(c)
    ensures var first := GetOrCreate(c, st, u, e1, entry1);
            var second := GetOrCreate(c, first.store, u, e2, entry2);
            && second.store == first.store
            && second.wallet == first.wallet
  {
    var first := GetOrCreate(c, st, u, e1, entry1);
    if u !in st {
      var a := Generate(c, e1);
      assert Valid(c, a);
      ReloadAccount(c, a);
    }
  }

  /** Get-or-create reads and writes `u`'s document only: stores that agree
      on it give the same outcome and still agree on it afterwards. */
  lemma GetOrCreateLocal(c: Crypto, st1: Store, st2: Store, u: UserId, e: Entropy, entry: EntryPoint)
    requires SameFor(u, st1, st2)
    ensures var r1, r2 := GetOrCreate(c, st1, u, e, entry), GetOrCreate(c, st2, u, e, entry);
            r1.wallet == r2.wallet && SameFor(u, r1.store, r2.store)
  {
  }
}

=== FILE: agent_stream.dfy ===
/** The filter both text handlers apply to the agent's stream: a chunk is
    forwarded as a reply when it is an update of the agent node whose first
    message has non-empty content (`chunk.agent?.messages[0]?.content` is
    truthy); tool-node chunks and empty agent turns are dropped. */
module AgentStream {

  datatype AgentMessage = AgentMessage(content: string)

  /** One update of the ReAct graph, tagged with the node that produced it. */
  datatype Chunk =
    | AgentStep(messages: seq<AgentMessage>)
    | ToolsStep(messages: seq<AgentMessage>)

  predicate Carries(ch: Chunk) {
    ch.AgentStep? && |ch.messages| > 0 && ch.messages[0].content != ""
  }

  function TextOf(ch: Chunk): string
    requires Carries(ch)
  {
    ch.messages[0].content
  }

  function Emitted(ch: Chunk): seq<string> {
    if Carries(ch) then [TextOf(ch)] else []
  }

  /** The texts forwarded for a stream prefix, in stream order. */
  function Forwarded(chunks: seq<Chunk>): (texts: seq<string>)
    ensures |texts| <= |chunks|
    ensures forall j :: 0 <= j < |texts| ==> texts[j] != ""
    decreases |chunks|
  {
    if chunks == [] then []
    else Forwarded(chunks[..|chunks| - 1]) + Emitted(chunks[|chunks| - 1])
  }

  /** Positions of the chunks that are forwarded, in stream order. */
  function Selected(chunks: seq<Chunk>): (idx: seq<nat>)
    decreases |chunks|
  {
    if chunks == [] then []
    else Selected(chunks[..|chunks| - 1]) + (if Carries(chunks[|chunks| - 1]) then [|chunks| - 1] else [])
  }

  predicate StrictlyIncreasing(idx: seq<nat>) {
    forall a, b :: 0 <= a < b < |idx| ==> idx[a] < idx[b]
  }

  lemma {:induction false} SelectedSound(chunks: seq<Chunk>)
    ensures |Forwarded(chunks)| == |Selected(chunks)|
    ensures forall j :: 0 <= j < |Selected(chunks)| ==>
              && Selected(chunks)[j] < |chunks|
              && Carries(chunks[Selected(chunks)[j]])
              && Forwarded(chunks)[j] == TextOf(chunks[Selected(chunks)[j]])
    decreases |chunks|
  {
    if chunks != [] {
      var n := |chunks| - 1;
      var init := chunks[..n];
      SelectedSound(init);
      var idx, texts := Selected(chunks), Forwarded(chunks);
      assert idx == Selected(init) + (if Carries(chunks[n]) then [n] else []);
      assert texts == Forwarded(init) + Emitted(chunks[n]);
      forall j | 0 <= j < |idx|
        ensures idx[j] < |chunks| && Carries(chunks[idx[j]]) && texts[j] == TextOf(chunks[idx[j]])
      {
        if j < |Selected(init)| {
          assert idx[j] == Selected(init)[j];
          assert texts[j] == Forwarded(init)[j];
          assert init[idx[j]] == chunks[idx[j]];
        }
      }
    }
  }

  lemma {:induction false} SelectedOrdered(chunks: seq<Chunk>)
    ensures forall j :: 0 <= j < |Selected(chunks)| ==> Selected(chunks)[j] < |chunks|
    ensures StrictlyIncreasing(Selected(chunks))
    decreases |chunks|
  {
    if chunks != [] {
      var n := |chunks| - 1;
      SelectedOrdered(chunks[..n]);
    }
  }

  lemma {:induction false} SelectedComplete(chunks: seq<Chunk>)
    ensures forall i :: 0 <= i < |chunks| && Carries(chunks[i]) ==> i in Selected(chunks)
    decreases |chunks|
  {
    if chunks != [] {
      var n := |chunks| - 1;
      var init := chunks[..n];
      SelectedComplete(init);
      forall i | 0 <= i < n && Carries(chunks[i])
        ensures i in Selected(chunks)
      {
        assert init[i] == chunks[i];
      }
    }
  }

  /** The filter in full: the forwarded texts are exactly the texts of the
      carrying chunks, one per chunk, in increasing stream position, and
      no carrying chunk is skipped. */
  lemma ForwardedExactly(chunks: seq<Chunk>)
    ensures var idx := Selected(chunks);
            && |Forwarded(chunks)| == |idx|
            && StrictlyIncreasing(idx)
            && (forall j :: 0 <= j < |idx| ==>
                  idx[j] < |chunks| && Carries(chunks[idx[j]]) && Forwarded(chunks)[j] == TextOf(chunks[idx[j]]))
            && (forall i :: 0 <= i < |chunks| && Carries(chunks[i]) ==> i in idx)
  {
    SelectedSound(chunks);
    SelectedOrdered(chunks);
    SelectedComplete(chunks);
  }

  /** Forwarding chunk by chunk as they arrive sends what forwarding the
      whole stream at once would: the filter never needs to buffer. */
  lemma {:induction false} ForwardedAppend(a: seq<Chunk>, b: seq<Chunk>)
    ensures Forwarded(a + b) == Forwarded(a) + Forwarded(b)
    decreases |b|
  {
    if b != [] {
      var n := |b| - 1;
      assert (a + b)[..|a + b| - 1] == a + b[..n];
      assert (a + b)[|a + b| - 1] == b[n];
      ForwardedAppend(a, b[..n]);
      calc {
        Forwarded(a + b);
        Forwarded(a + b[..n]) + Emitted(b[n]);
        Forwarded(a) + Forwarded(b[..n]) + Emitted(b[n]);
        Forwarded(a) + Forwarded(b);
      }
    } else {
      assert a + b == a;
    }
  }

  /** The `for await` loop over the stream: the executable counterpart of
      `Forwarded`, which the handlers use. */
  method ForwardStream(chunks: seq<Chunk>) returns (sent: seq<string>)
    ensures sent == Forwarded(chunks)
  {
    sent := [];
    var i := 0;
    while i < |chunks|
      invariant 0 <= i <= |chunks|
      invariant sent == Forwarded(chunks[..i])
    {
      if Carries(chunks[i]) {
        sent := sent + [TextOf(chunks[i])];
      }
      assert chunks[..i + 1][..i] == chunks[..i];
      i := i + 1;
    }
    assert chunks[..i] == chunks;
  }
}

=== FILE: bot.dfy ===
/** The handlers of bot.js: a wallet is created on first contact, the
    settings actions reveal the key pair or flip the alerts flag, and every
    text goes to the agent. None of them touches the import flags. */
module BotJs {
  import opened Wrappers
  import opened Keys
  import opened Accounts
  import opened Telegram
  import opened Session
  import AgentStream

  /** The result bot.js's `getOrCreateUserWallet` returns: the signer and
      the address string the handlers print. */
  datatype AddressLookup = AddressLookup(store: Store, result: Result<(Account, string), KeyDecodeError>)

  /** bot.js `getOrCreateUserWallet`: the address returned is the stored
      `publicKey` of an existing document, or the fresh account's. */
  function GetOrCreateUserWallet(c: Crypto, st: Store, u: UserId, e: Entropy): (r: AddressLookup)
    ensures u in r.store && SameOutside(u, st, r.store)
    ensures u in st ==> r.store == st
    ensures u in st && r.result.Success? ==> r.result.value.1 == st[u].publicKey
    ensures u !in st ==>
              && r.result.Success?
              && r.store.Keys == st.Keys + {u}
              && r.store[u].alertsEnabled == Some(false)
              && r.store[u].publicKey == r.result.value.1 == r.result.value.0.publicKey
              && r.store[u].privateKey == r.result.value.0.privateKey
              && (Sound(c) ==> Valid(c, KeyPair(r.store[u])))
  {
    var lookup := GetOrCreate(c, st, u, e, EntryPoint.BotJs);
    match lookup.wallet
    case Success(w) => AddressLookup(lookup.store, Success((w.account, w.record.publicKey)))
    case Failure(err) => AddressLookup(lookup.store, Failure(err))
  }

  /** Two sequential calls return the same address and the second one
      writes nothing. */
  lemma SameAddressTwice(c: Crypto, st: Store, u: UserId, e1: Entropy, e2: Entropy)
    requires Sound(c) && (u in st ==> c.decodes(st[u].privateKey))
    ensures var first := GetOrCreateUserWallet(c, st, u, e1);
            var second := GetOrCreateUserWallet(c, first.store, u, e2);
            && first.result.Success? && second.result.Success?
            && second.store == first.store
            && second.result.value.1 == first.result.value.1
  {
    GetOrCreateIdempotent(c, st, u, e1, e2, EntryPoint.BotJs, EntryPoint.BotJs);
  }

  /** `/start`: create the wallet if needed and greet with its address. */
  function Start(c: Crypto, s: State, ctx: Ctx, e: Entropy): (r: Outcome)
    ensures r.state.awaiting == s.awaiting && OnlyTouches(ctx.from, s, r.state)
    ensures ctx.from in r.state.store && r.agent.None?
    ensures r.failure.None? ==>
              r.sent == [Outgoing(ctx.chat, Welcome(r.state.store[ctx.from].publicKey))]
    ensures r.failure.Some? ==> r.state == s && r.sent == []
    ensures Sound(c) && WellFormed(c, s.store) ==>
              r.failure.None? && WellFormed(c, r.state.store)
  {
    var lookup := GetOrCreateUserWallet(c, s.store, ctx.from, e);
    var s' := State(lookup.store, s.awaiting);
    match lookup.result
    case Success((_, address)) => Outcome(s', [Outgoing(ctx.chat, Welcome(address))], None, None)
    case Failure(err) => Outcome(s', [], None, Some(err))
  }

  /** `view_private_key`: the key goes by direct message to the user's own
      chat, whatever chat the button was pressed in. */
  function ViewPrivateKey(s: State, ctx: Ctx): (r: Outcome)
    ensures r.state == s && r.agent.None? && r.failure.None? && |r.sent| == 1
    ensures KeyOnlyToOwner(ctx.from, s.store, r.sent)
    ensures RevealsKey(r.sent[0]) <==> ctx.from in s.store
    ensures ctx.from !in s.store ==> r.sent[0] == Outgoing(ctx.chat, NoPrivateKey)
  {
    var u := ctx.from;
    var reply := if u in s.store then Outgoing(u, PrivateKeyNotice(s.store[u].privateKey))
                 else Outgoing(ctx.chat, NoPrivateKey);
    Outcome(s, [reply], None, None)
  }

  /** `view_wallet`: read-only; shows the stored address, never the key. */
  function ViewWallet(s: State, ctx: Ctx): (r: Outcome)
    ensures r.state == s && r.agent.None? && r.failure.None? && |r.sent| == 1
    ensures r.sent[0].chat == ctx.chat && !RevealsKey(r.sent[0])
    ensures ctx.from in s.store <==> r.sent[0].reply.WalletAddress?
    ensures ctx.from in s.store ==> r.sent[0].reply.address == s.store[ctx.from].publicKey
    ensures ctx.from !in s.store ==> r.sent[0] == Outgoing(ctx.chat, NoWallet)
  {
    var u := ctx.from;
    var reply := if u in s.store then WalletAddress(s.store[u].publicKey) else NoWallet;
    Outcome(s, [Outgoing(ctx.chat, reply)], None, None)
  }

  /** JavaScript truthiness of a stored boolean that may be missing. */
  predicate Truthy(flag: Option<bool>) {
    flag == Some(true)
  }

  /** `toggle_alerts`: store the negation of the current flag; a document
      written by index.js has no flag, which reads as false. */
  function ToggleAlerts(s: State, ctx: Ctx): (r: Outcome)
    ensures r.agent.None? && r.failure.None? && |r.sent| == 1 && r.sent[0].chat == ctx.chat
    ensures r.state.awaiting == s.awaiting && r.state.store.Keys == s.store.Keys
    ensures OnlyTouches(ctx.from, s, r.state)
    ensures ctx.from !in s.store ==> r.state == s && r.sent[0].reply == NoAccount
    ensures ctx.from in s.store ==>
              var before, after := s.store[ctx.from], r.state.store[ctx.from];
              && after == before.(alertsEnabled := after.alertsEnabled)
              && after.alertsEnabled.Some?
              && after.alertsEnabled.value == !Truthy(before.alertsEnabled)
              && r.sent[0].reply == AlertsChanged(after.alertsEnabled.value)
  {
    var u := ctx.from;
    if u !in s.store then
      Outcome(s, [Outgoing(ctx.chat, NoAccount)], None, None)
    else
      var enabled := !Truthy(s.store[u].alertsEnabled);
      var store' := s.store[u := s.store[u].(alertsEnabled := Some(enabled))];
      Outcome(State(store', s.awaiting), [Outgoing(ctx.chat, AlertsChanged(enabled))], None, None)
  }

  /** Toggling twice restores the flag's truth value, and the stored value
      itself when the document had one; key material never changes. */
  lemma ToggleTwice(s: State, ctx: Ctx)
    requires ctx.from in s.store
    ensures var twice := ToggleAlerts(ToggleAlerts(s, ctx).state, ctx).state;
            && Truthy(twice.store[ctx.from].alertsEnabled) == Truthy(s.store[ctx.from].alertsEnabled)
            && (s.store[ctx.from].alertsEnabled.Some? ==> twice == s)
  {
    var u := ctx.from;
    var once := ToggleAlerts(s, ctx).state;
    var twice := ToggleAlerts(once, ctx).state;
    if s.store[u].alertsEnabled.Some? {
      var b := s.store[u].alertsEnabled.value;
      assert once.store[u] == s.store[u].(alertsEnabled := Some(!b));
      assert twice.store[u] == once.store[u].(alertsEnabled := Some(b));
      assert twice.store[u] == s.store[u];
      assert twice.store == s.store;
    }
  }

  /** A text message: get-or-create the wallet, run the agent on the user's
      thread with that signer, and reply with each forwarded chunk. */
  function OnText(c: Crypto, s: State, ctx: Ctx, text: string, e: Entropy,
                  stream: seq<AgentStream.Chunk>): (r: Outcome)
    ensures r.state.awaiting == s.awaiting && OnlyTouches(ctx.from, s, r.state)
    ensures ctx.from in r.state.store
    ensures r.failure.None? <==> r.agent.Some?
    ensures r.failure.None? ==>
              && r.agent.value.threadId == ctx.from
              && r.agent.value.text == text
              && r.sent == AgentReplies(ctx.chat, AgentStream.Forwarded(stream))
    ensures r.failure.Some? <==> ctx.from in s.store && !c.decodes(s.store[ctx.from].privateKey)
    ensures r.failure.Some? ==> r.state == s && r.sent == []
    ensures r.agent.Some? && ctx.from in s.store ==>
              r.agent.value.signer == FromPrivateKey(c, s.store[ctx.from].privateKey).value
    ensures r.agent.Some? && ctx.from !in s.store ==>
              r.agent.value.signer == Generate(c, e) == KeyPair(r.state.store[ctx.from])
    ensures Sound(c) && WellFormed(c, s.store) ==>
              && r.failure.None?
              && WellFormed(c, r.state.store)
              && r.agent.value.signer == KeyPair(r.state.store[ctx.from])
              && AgentBoundTo(ctx.from, r.state.store, r.agent)
  {
    var lookup := GetOrCreate(c, s.store, ctx.from, e, EntryPoint.BotJs);
    var s' := State(lookup.store, s.awaiting);
    match lookup.wallet
    case Success(w) =>
      Outcome(s', AgentReplies(ctx.chat, AgentStream.Forwarded(stream)),
              Some(AgentCall(ctx.from, w.account, text)), None)
    case Failure(err) => Outcome(s', [], None, Some(err))
  }
}

=== FILE: hexkey.dfy ===
/** The private-key validator of the import flow, `/^[0-9a-fA-F]{64}$/`
    (index.js), and the 32-byte Ed25519 secret key (section 5.1.5 of
    RFC 8032) that an accepted string spells in hexadecimal. */
module HexKey {

  /** Number of characters an importable key must have: two per byte. */
  const KeyChars := 64

  /** Number of bytes of an Ed25519 secret key. */
  const KeyBytes := 32

  newtype byte = x: int | 0 <= x < 256

  /** The character class `[0-9a-fA-F]`. */
  predicate IsHexDigit(ch: char) {
    '0' <= ch <= '9' || 'a' <= ch <= 'f' || 'A' <= ch <= 'F'
  }

  /** Reference definition of the language of the validator: exactly
      64 characters, every one of them a hexadecimal digit. */
  predicate IsHexKey(s: string) {
    |s| == KeyChars && AllHex(s)
  }

  /** The anchored match of the pattern: consume at most 64 hex digits
      from the start, then require that the input ends there. This is the
      executable counterpart of `IsHexKey`, which the handlers use. */
  method MatchesKeyPattern(s: string) returns (ok: bool)
    ensures ok <==> IsHexKey(s)
  {
    var i := 0;
    while i < |s| && i < KeyChars && IsHexDigit(s[i])
      invariant 0 <= i <= |s| && i <= KeyChars
      invariant forall j :: 0 <= j < i ==> IsHexDigit(s[j])
    {
      i := i + 1;
    }
    ok := i == KeyChars && i == |s|;
  }

  function DigitValue(ch: char): (v: nat)
    requires IsHexDigit(ch)
    ensures v < 16
  {
    if '0' <= ch <= '9' then (ch - '0') as nat
    else if 'a' <= ch <= 'f' then (ch - 'a') as nat + 10
    else (ch - 'A') as nat + 10
  }

  /** Lower-case digit for a value below 16. */
  function LowerDigit(v: nat): (ch: char)
    requires v < 16
    ensures IsHexDigit(ch)
  {
    if v < 10 then ('0' as int + v) as char else ('a' as int + v - 10) as char
  }

  predicate AllHex(s: string) {
    forall i :: 0 <= i < |s| ==> IsHexDigit(s[i])
  }

  /** Bytes spelled by an even-length string of hex digits, big end first
      within each byte. */
  function HexToBytes(s: string): (b: seq<byte>)
    requires |s| % 2 == 0 && AllHex(s)
    ensures |b| == |s| / 2
    decreases |s|
  {
    if s == [] then []
    else [(DigitValue(s[0]) * 16 + DigitValue(s[1])) as byte] + HexToBytes(s[2..])
  }

  /** Lower-case hexadecimal spelling of a byte string. */
  function BytesToHex(b: seq<byte>): (s: string)
    ensures |s| == 2 * |b| && AllHex(s)
  {
    if b == [] then []
    else [LowerDigit(b[0] as nat / 16), LowerDigit(b[0] as nat % 16)] + BytesToHex(b[1..])
  }

  /** The bytes an accepted import key stands for: a 32-byte secret key. */
  function SecretKey(s: string): (key: seq<byte>)
    requires IsHexKey(s)
    ensures |key| == KeyBytes
  {
    HexToBytes(s)
  }

  lemma LowerDigitValue(v: nat)
    requires v < 16
    ensures DigitValue(LowerDigit(v)) == v
  {
  }

  lemma {:induction false} HexRoundTrip(b: seq<byte>)
    ensures HexToBytes(BytesToHex(b)) == b
  {
    if b != [] {
      var s := BytesToHex(b);
      var hi, lo := b[0] as nat / 16, b[0] as nat % 16;
      LowerDigitValue(hi);
      LowerDigitValue(lo);
      assert s[2..] == BytesToHex(b[1..]);
      HexRoundTrip(b[1..]);
    }
  }

  /** Every 32-byte secret key, written in lower-case hex, passes the
      validator and decodes back to itself. */
  lemma SecretKeyRoundTrip(key: seq<byte>)
    requires |key| == KeyBytes
    ensures IsHexKey(BytesToHex(key))
    ensures SecretKey(BytesToHex(key)) == key
  {
    HexRoundTrip(key);
  }

  function LowerChar(ch: char): char {
    if 'A' <= ch <= 'F' then (ch as int - 'A' as int + 'a' as int) as char else ch
  }

  function ToLower(s: string): (t: string)
    ensures |t| == |s|
    ensures forall i :: 0 <= i < |s| ==> t[i] == LowerChar(s[i])
  {
    if s == [] then [] else [LowerChar(s[0])] + ToLower(s[1..])
  }

  lemma DigitSpelling(ch: char)
    requires IsHexDigit(ch)
    ensures LowerDigit(DigitValue(ch)) == LowerChar(ch)
  {
  }

  lemma {:induction false} HexSpelling(s: string)
    requires |s| % 2 == 0 && AllHex(s)
    ensures BytesToHex(HexToBytes(s)) == ToLower(s)
    decreases |s|
  {
    if s != [] {
      var hi, lo := DigitValue(s[0]), DigitValue(s[1]);
      var b := (hi * 16 + lo) as byte;
      assert b as nat / 16 == hi && b as nat % 16 == lo;
      DigitSpelling(s[0]);
      DigitSpelling(s[1]);
      HexSpelling(s[2..]);
      assert HexToBytes(s)[1..] == HexToBytes(s[2..]);
      assert ToLower(s) == [LowerChar(s[0]), LowerChar(s[1])] + ToLower(s[2..]);
    }
  }

  /** Two accepted import strings stand for the same secret key exactly
      when they spell the same digits up to letter case. */
  lemma SameKeyIffSameDigits(s1: string, s2: string)
    requires IsHexKey(s1) && IsHexKey(s2)
    ensures SecretKey(s1) == SecretKey(s2) <==> ToLower(s1) == ToLower(s2)
  {
    HexSpelling(s1);
    HexSpelling(s2);
    if ToLower(s1) == ToLower(s2) {
      HexRoundTrip(SecretKey(s1));
      HexRoundTrip(SecretKey(s2));
    }
  }
}

=== FILE: index.dfy ===
/** The handlers of index.js: `/start` offers to create or import an
    account, `import_account` arms the import flag, and a text either
    imports a key (while the flag is set) or goes to the agent. As written,
    an invalid key keeps the flag set (retry until valid) and a valid key,
    once imported, also goes on to the agent as a conversational turn. */
module IndexJs {
  import opened Wrappers
  import opened Keys
  import opened Accounts
  import opened Telegram
  import opened Session
  import HexKey
  import AgentStream

  /** What index.js's `getOrCreateUserWallet` returns: the signer and the
      stored `inProgress` (missing when bot.js wrote the document). */
  datatype ProgressLookup = ProgressLookup(store: Store, result: Result<(Account, Option<bool>), KeyDecodeError>)

  /** index.js `getOrCreateUserWallet`: a fresh document starts with both
      status flags false; an existing one's `inProgress` is passed back as
      stored. */
  function GetOrCreateUserWallet(c: Crypto, st: Store, u: UserId, e: Entropy): (r: ProgressLookup)
    ensures u in r.store && SameOutside(u, st, r.store)
    ensures u in st ==> r.store == st
    ensures u in st && r.result.Success? ==> r.result.value.1 == st[u].inProgress
    ensures u !in st ==>
              && r.result.Success?
              && r.result.value.1 == Some(false)
              && r.store.Keys == st.Keys + {u}
              && r.store[u].inProgress == Some(false) && r.store[u].inGame == Some(false)
              && r.store[u].alertsEnabled.None?
              && KeyPair(r.store[u]) == r.result.value.0
  {
    var lookup := GetOrCreate(c, st, u, e, EntryPoint.IndexJs);
    match lookup.wallet
    case Success(w) => ProgressLookup(lookup.store, Success((w.account, w.record.inProgress)))
    case Failure(err) => ProgressLookup(lookup.store, Failure(err))
  }

  /** `/start`: never writes; shows the create/import menu exactly when the
      user has no document, and says nothing otherwise. */
  function Start(s: State, ctx: Ctx): (r: Outcome)
    ensures r.state == s && r.agent.None? && r.failure.None?
    ensures ctx.from !in s.store <==> r.sent == [Outgoing(ctx.chat, AccountMenu)]
    ensures ctx.from in s.store <==> r.sent == []
  {
    if ctx.from !in s.store then Outcome(s, [Outgoing(ctx.chat, AccountMenu)], None, None)
    else Outcome(s, [], None, None)
  }

  /** `create_account`: get-or-create, then report the signer's address. */
  function CreateAccount(c: Crypto, s: State, ctx: Ctx, e: Entropy): (r: Outcome)
    ensures r.state.awaiting == s.awaiting && OnlyTouches(ctx.from, s, r.state)
    ensures ctx.from in r.state.store && r.agent.None?
    ensures ctx.from in s.store ==> r.state == s
    ensures r.failure.Some? <==> ctx.from in s.store && !c.decodes(s.store[ctx.from].privateKey)
    ensures r.failure.Some? ==> r.sent == []
    ensures ctx.from in s.store && r.failure.None? ==>
              r.sent == [Outgoing(ctx.chat, AccountCreated(c.derive(s.store[ctx.from].privateKey)))]
    ensures ctx.from !in s.store ==>
              r.sent == [Outgoing(ctx.chat, AccountCreated(r.state.store[ctx.from].publicKey))]
    ensures Sound(c) && WellFormed(c, s.store) ==>
              && r.failure.None?
              && WellFormed(c, r.state.store)
              && r.sent == [Outgoing(ctx.chat, AccountCreated(r.state.store[ctx.from].publicKey))]
  {
    var lookup := GetOrCreateUserWallet(c, s.store, ctx.from, e);
    var s' := State(lookup.store, s.awaiting);
    match lookup.result
    case Success((account, _)) => Outcome(s', [Outgoing(ctx.chat, AccountCreated(account.publicKey))], None, None)
    case Failure(err) => Outcome(s', [], None, Some(err))
  }

  /** `import_account`: arm the import flag of this user only. */
  function ImportAccount(s: State, ctx: Ctx): (r: Outcome)
    ensures r.state.store == s.store && r.agent.None? && r.failure.None?
    ensures r.state.awaiting == s.awaiting + {ctx.from}
    ensures r.sent == [Outgoing(ctx.chat, ImportPrompt)]
  {
    Outcome(State(s.store, s.awaiting + {ctx.from}), [Outgoing(ctx.chat, ImportPrompt)], None, None)
  }

  /** The conversational part of the text handler, after any import:
      get-or-create, then run the agent and forward its chunks. */
  function Converse(c: Crypto, s: State, ctx: Ctx, text: string, e: Entropy,
                    stream: seq<AgentStream.Chunk>, before: seq<Outgoing>): (r: Outcome)
    ensures r.state.awaiting == s.awaiting && OnlyTouches(ctx.from, s, r.state)
    ensures ctx.from in r.state.store
    ensures ctx.from in s.store ==> r.state == s
    ensures r.failure.Some? <==> ctx.from in s.store && !c.decodes(s.store[ctx.from].privateKey)
    ensures |before| <= |r.sent| && r.sent[..|before|] == before
    ensures r.failure.None? <==> r.agent.Some?
    ensures r.failure.Some? ==> r.state == s && r.sent == before
    ensures r.failure.None? ==>
              && r.agent.value.threadId == ctx.from && r.agent.value.text == text
              && r.sent == before + AgentReplies(ctx.chat, AgentStream.Forwarded(stream))
    ensures Sound(c) && WellFormed(c, s.store) ==>
              && r.failure.None?
              && WellFormed(c, r.state.store)
              && r.agent.value.signer == KeyPair(r.state.store[ctx.from])
  {
    var lookup := GetOrCreateUserWallet(c, s.store, ctx.from, e);
    var s' := State(lookup.store, s.awaiting);
    match lookup.result
    case Success((account, _)) =>
      Outcome(s', before + AgentReplies(ctx.chat, AgentStream.Forwarded(stream)),
              Some(AgentCall(ctx.from, account, text)), None)
    case Failure(err) => Outcome(s', before, None, Some(err))
  }

  /** The `text` handler. While the user is awaited, text that is not a
      64-hex-digit key is refused and nothing else happens; a key is
      upserted, the flag cleared, and the text then falls through to the
      conversational path like any other. */
  function OnText(c: Crypto, s: State, ctx: Ctx, text: string, e: Entropy,
                  stream: seq<AgentStream.Chunk>): (r: Outcome)
    ensures OnlyTouches(ctx.from, s, r.state)
    ensures ctx.from in s.awaiting && !HexKey.IsHexKey(text) ==>
              r.state == s && r.agent.None? && r.failure.None?
              && r.sent == [Outgoing(ctx.chat, InvalidKeyFormat)]
    ensures ctx.from in s.awaiting && HexKey.IsHexKey(text) && c.decodes(text) ==>
              && ctx.from !in r.state.awaiting
              && ctx.from in r.state.store
              && r.state.store[ctx.from].publicKey == c.derive(text)
              && r.state.store[ctx.from].privateKey == c.canonical(text)
              && r.state.store[ctx.from].inProgress == Some(false)
              && r.state.store[ctx.from].inGame == Some(false)
              && r.state.store[ctx.from].alertsEnabled
                 == (if ctx.from in s.store then s.store[ctx.from].alertsEnabled else None)
              && |r.sent| > 0
              && r.sent[0] == Outgoing(ctx.chat, AccountImported(c.derive(text)))
    ensures Sound(c) && ctx.from in s.awaiting && HexKey.IsHexKey(text) ==>
              && r.failure.None?
              && r.sent == [Outgoing(ctx.chat, AccountImported(c.derive(text)))]
                           + AgentReplies(ctx.chat, AgentStream.Forwarded(stream))
    ensures ctx.from !in s.awaiting ==> r == Converse(c, s, ctx, text, e, stream, [])
    ensures r.agent.Some? ==> ctx.from !in r.state.awaiting
    ensures Sound(c) && WellFormed(c, s.store) ==>
              && r.failure.None?
              && WellFormed(c, r.state.store)
              && AgentBoundTo(ctx.from, r.state.store, r.agent)
  {
    var u := ctx.from;
    if u in s.awaiting then
      if !HexKey.IsHexKey(text) then
        Outcome(s, [Outgoing(ctx.chat, InvalidKeyFormat)], None, None)
      else
        match FromPrivateKey(c, text)
        case None => Outcome(s, [], None, Some(KeyDecodeError(u)))
        case Some(account) =>
          var s' := State(Upsert(s.store, u, account), s.awaiting - {u});
          Converse(c, s', ctx, text, e, stream, [Outgoing(ctx.chat, AccountImported(account.publicKey))])
    else
      Converse(c, s, ctx, text, e, stream, [])
  }

  /** Import wins over whatever was stored: after a valid key is imported,
      get-or-create from either entry point returns the imported account
      and writes nothing, however the document was first created. */
  lemma ImportThenGetOrCreate(c: Crypto, s: State, ctx: Ctx, key: string, e: Entropy,
                              stream: seq<AgentStream.Chunk>, e2: Entropy, entry: EntryPoint)
    requires Sound(c)
    requires ctx.from in s.awaiting && HexKey.IsHexKey(key)
    ensures var after := OnText(c, s, ctx, key, e, stream).state;
            var lookup := GetOrCreate(c, after.store, ctx.from, e2, entry);
            && lookup.store == after.store
            && lookup.wallet.Success?
            && lookup.wallet.value.account == Account(c.canonical(key), c.derive(key))
  {
    var after := OnText(c, s, ctx, key, e, stream).state;
    var imported := Account(c.canonical(key), c.derive(key));
    assert KeyPair(after.store[ctx.from]) == imported;
    ReloadAccount(c, imported);
  }

  /** As written, a successful import does not return: the agent is then
      run on the user's thread with the imported signer, and the text it is
      given is the private key itself. */
  lemma ImportedKeyReachesAgent(c: Crypto, s: State, ctx: Ctx, key: string, e: Entropy,
                                stream: seq<AgentStream.Chunk>)
    requires Sound(c)
    requires ctx.from in s.awaiting && HexKey.IsHexKey(key)
    ensures OnText(c, s, ctx, key, e, stream).agent
            == Some(AgentCall(ctx.from, Account(c.canonical(key), c.derive(key)), key))
  {
    var imported := Account(c.canonical(key), c.derive(key));
    var s' := State(Upsert(s.store, ctx.from, imported), s.awaiting - {ctx.from});
    assert KeyPair(s'.store[ctx.from]) == imported;
    ReloadAccount(c, imported);
  }

  /** Whether a text is an import attempt depends on this user's flag only:
      two states that differ only in other users' flags give the same
      writes, replies and agent run. */
  lemma DispatchIgnoresOtherFlags(c: Crypto, s1: State, s2: State, ctx: Ctx, text: string,
                                  e: Entropy, stream: seq<AgentStream.Chunk>)
    requires s1.store == s2.store
    requires ctx.from in s1.awaiting <==> ctx.from in s2.awaiting
    ensures var r1, r2 := OnText(c, s1, ctx, text, e, stream), OnText(c, s2, ctx, text, e, stream);
            && r1.state.store == r2.state.store
            && (ctx.from in r1.state.awaiting <==> ctx.from in r2.state.awaiting)
            && r1.sent == r2.sent && r1.agent == r2.agent && r1.failure == r2.failure
  {
    var u := ctx.from;
    if u in s1.awaiting && HexKey.IsHexKey(text) && c.decodes(text) {
      var account := FromPrivateKey(c, text).value;
      var before := [Outgoing(ctx.chat, AccountImported(account.publicKey))];
      var t1 := State(Upsert(s1.store, u, account), s1.awaiting - {u});
      var t2 := State(Upsert(s2.store, u, account), s2.awaiting - {u});
      assert OnText(c, s1, ctx, text, e, stream) == Converse(c, t1, ctx, text, e, stream, before);
      assert OnText(c, s2, ctx, text, e, stream) == Converse(c, t2, ctx, text, e, stream, before);
    }
  }

  /** The import is insensitive to letter case: two spellings of the same
      key leave the same state, send the same replies and give the agent
      the same signer. */
  lemma ImportIgnoresLetterCase(c: Crypto, s: State, ctx: Ctx, k1: string, k2: string, e: Entropy,
                                stream: seq<AgentStream.Chunk>)
    requires Sound(c) && CaseBlind(c)
    requires ctx.from in s.awaiting && HexKey.IsHexKey(k1) && HexKey.IsHexKey(k2)
    requires HexKey.ToLower(k1) == HexKey.ToLower(k2)
    ensures var r1, r2 := OnText(c, s, ctx, k1, e, stream), OnText(c, s, ctx, k2, e, stream);
            && r1.state == r2.state && r1.sent == r2.sent
            && r1.agent.Some? && r2.agent.Some?
            && r1.agent.value.signer == r2.agent.value.signer
  {
    HexKey.SameKeyIffSameDigits(k1, k2);
    assert FromPrivateKey(c, k1) == FromPrivateKey(c, k2);
    var account := FromPrivateKey(c, k1).value;
    var before := [Outgoing(ctx.chat, AccountImported(account.publicKey))];
    var t := State(Upsert(s.store, ctx.from, account), s.awaiting - {ctx.from});
    assert OnText(c, s, ctx, k1, e, stream) == Converse(c, t, ctx, k1, e, stream, before);
    assert OnText(c, s, ctx, k2, e, stream) == Converse(c, t, ctx, k2, e, stream, before);
  }
}

=== FILE: keys.dfy ===
/** The signing-key library seen from the bot: Ed25519 key generation,
    decoding of a stored or imported private-key string, its canonical
    printed form, and public-key derivation. None of the curve arithmetic
    is modelled; each library call is an uninterpreted function that the
    handlers receive as a `Crypto` value. */
module Keys {
  import opened Wrappers
  import HexKey

  /** Randomness consumed by `Account.generate()`. */
  type Entropy = nat

  datatype Crypto = Crypto(
    /** Private-key text of the key pair `Account.generate()` draws. */
    generate: Entropy -> string,
    /** Whether `new Ed25519PrivateKey(formatPrivateKey(text))` accepts `text`. */
    decodes: string -> bool,
    /** `privateKey.toString()` of the key decoded from `text`. */
    canonical: string -> string,
    /** `publicKey.toString()` of the account built from the private key `text`. */
    derive: string -> string)

  /** An Aptos account reduced to the printed forms of its key pair. */
  datatype Account = Account(privateKey: string, publicKey: string)

  /** What the library guarantees and the bot relies on: accepted import
      text and generated keys decode, and re-decoding the canonical form
      gives the same key. */
  ghost predicate Sound(c: Crypto) {
    && (forall s :: HexKey.IsHexKey(s) ==> c.decodes(s))
    && (forall e :: c.decodes(c.generate(e)))
    && (forall s :: c.decodes(s) ==>
          && c.decodes(c.canonical(s))
          && c.canonical(c.canonical(s)) == c.canonical(s)
          && c.derive(c.canonical(s)) == c.derive(s))
  }

  /** The library reads an accepted import string as the 32 bytes it
      spells: two strings with the same bytes print and derive alike
      (`formatPrivateKey` goes through the bytes, so letter case is lost). */
  ghost predicate CaseBlind(c: Crypto) {
    forall s1, s2 {:trigger HexKey.SecretKey(s1), HexKey.SecretKey(s2)} ::
      HexKey.IsHexKey(s1) && HexKey.IsHexKey(s2) && HexKey.SecretKey(s1) == HexKey.SecretKey(s2) ==>
      c.canonical(s1) == c.canonical(s2) && c.derive(s1) == c.derive(s2)
  }

  /** The printed key pair agrees: the private key is in canonical form and
      decodes, and the public key is the one derived from it. */
  ghost predicate Valid(c: Crypto, a: Account) {
    && c.decodes(a.privateKey)
    && c.canonical(a.privateKey) == a.privateKey
    && a.publicKey == c.derive(a.privateKey)
  }

  /** `Account.fromPrivateKey(new Ed25519PrivateKey(formatPrivateKey(text)))`;
      `None` is the exception the constructor throws on malformed text. */
  function FromPrivateKey(c: Crypto, text: string): (r: Option<Account>)
    ensures r.Some? <==> c.decodes(text)
    ensures Sound(c) && r.Some? ==> Valid(c, r.value)
  {
    if c.decodes(text) then Some(Account(c.canonical(text), c.derive(text))) else None
  }

  /** `Account.generate()`. */
  function Generate(c: Crypto, e: Entropy): (a: Account)
    ensures Sound(c) ==> Valid(c, a)
  {
    var text := c.generate(e);
    Account(c.canonical(text), c.derive(text))
  }

  /** Decoding the private key of a valid account rebuilds exactly that
      account; this is how a stored record becomes a signer again. */
  lemma ReloadAccount(c: Crypto, a: Account)
    requires Valid(c, a)
    ensures FromPrivateKey(c, a.privateKey) == Some(a)
  {
  }
}

=== FILE: scenarios.dfy ===
/** End-to-end runs of the two entry points for one user, with concrete
    messages. */
module Scenarios {
  import opened Wrappers
  import opened Keys
  import opened Accounts
  import opened Telegram
  import opened Session
  import opened System
  import HexKey
  import AgentStream

  /** The key `"11"` repeated 32 times. */
  const ElevenKey: string := seq(64, _ => '1')

  /** A fresh user sends `/start` to bot.js: a document with alerts off is
      created and the greeting carries the generated address. */
  lemma FirstContact(c: Crypto, s: State, ctx: Ctx, e: Entropy)
    requires ctx.from !in s.store
    ensures var r := Step(c, s, BotStart(ctx, e));
            && ctx.from in r.state.store
            && r.state.store[ctx.from].alertsEnabled == Some(false)
            && r.sent == [Outgoing(ctx.chat, Welcome(Generate(c, e).publicKey))]
  {
  }

  /** index.js: the user asks to import, sends "abc" (refused, still
      awaited, nothing written), then the 64-digit key (imported, no longer
      awaited, the stored address is the one derived from the key). */
  lemma TypoThenImport(c: Crypto, s: State, ctx: Ctx, e: Entropy, stream: seq<AgentStream.Chunk>)
    requires Sound(c)
    ensures var armed := Step(c, s, IndexImportAccount(ctx)).state;
            var typo := Step(c, armed, IndexText(ctx, "abc", e, stream));
            var done := Step(c, typo.state, IndexText(ctx, ElevenKey, e, stream));
            && typo.state == armed && ctx.from in typo.state.awaiting
            && typo.sent == [Outgoing(ctx.chat, InvalidKeyFormat)] && typo.agent.None?
            && ctx.from !in done.state.awaiting
            && ctx.from in done.state.store
            && done.state.store[ctx.from].publicKey == c.derive(ElevenKey)
  {
    assert !HexKey.IsHexKey("abc");
    assert HexKey.IsHexKey(ElevenKey);
  }
}

=== FILE: session.dfy ===
/** The state the handlers of both entry points act on, and what one
    handler invocation produces. */
module Session {
  import opened Wrappers
  import opened Keys
  import opened Accounts
  import opened Telegram

  /** The `users` collection and the users index.js is waiting on for a
      private key (`userImportState`; the only value it ever stores is
      `true`, and `delete` removes the entry). */
  datatype State = State(store: Store, awaiting: set<UserId>)

  /** A run of the ReAct agent: the conversation thread, the signer its
      tools act with, and the user text it is given. */
  datatype AgentCall = AgentCall(threadId: UserId, signer: Account, text: string)

  /** One handler invocation: the state it leaves, the messages it sends in
      order, the agent run it starts if any, and the exception that aborted
      it if any (effects before the exception are kept). */
  datatype Outcome = Outcome(state: State, sent: seq<Outgoing>, agent: Option<AgentCall>, failure: Option<KeyDecodeError>)

  /** Only `u`'s document and `u`'s import flag may differ. */
  ghost predicate OnlyTouches(u: UserId, s: State, s': State) {
    SameOutside(u, s.store, s'.store) && s'.awaiting - {u} == s.awaiting - {u}
  }

  /** Every private-key notice in `sent` goes to `u`'s own private chat
      and carries `u`'s stored key. */
  ghost predicate KeyOnlyToOwner(u: UserId, st: Store, sent: seq<Outgoing>) {
    forall j :: 0 <= j < |sent| && RevealsKey(sent[j]) ==>
      sent[j].chat == u && u in st && sent[j].reply.privateKey == st[u].privateKey
  }

  /** The agent, if started, runs on `u`'s own thread with the signer of
      `u`'s stored document. */
  ghost predicate AgentBoundTo(u: UserId, st: Store, agent: Option<AgentCall>) {
    agent.Some? ==> agent.value.threadId == u && u in st && agent.value.signer.publicKey == st[u].publicKey
  }
}

=== FILE: system.dfy ===
/** Both entry points' handlers over the one shared collection, driven by a
    sequence of updates. The lemmas here are about whole runs: the key-pair
    invariant of the store survives any run, private-key notices only ever
    go to their owner, and a user's document and import flag depend on
    that user's own updates only. */
module System {
  import opened Keys
  import opened Accounts
  import opened Telegram
  import opened Session
  import BotJs
  import IndexJs
  import AgentStream

  /** One incoming update and the handler it is routed to. Entropy stands
      for the randomness `Account.generate()` would draw, and the stream
      for what the agent answers. */
  datatype Input =
    | BotStart(ctx: Ctx, e: Entropy)
    | BotViewPrivateKey(ctx: Ctx)
    | BotViewWallet(ctx: Ctx)
    | BotToggleAlerts(ctx: Ctx)
    | BotText(ctx: Ctx, text: string, e: Entropy, stream: seq<AgentStream.Chunk>)
    | IndexStart(ctx: Ctx)
    | IndexCreateAccount(ctx: Ctx, e: Entropy)
    | IndexImportAccount(ctx: Ctx)
    | IndexText(ctx: Ctx, text: string, e: Entropy, stream: seq<AgentStream.Chunk>)

  function Step(c: Crypto, s: State, i: Input): Outcome {
    match i
    case BotStart(ctx, e) => BotJs.Start(c, s, ctx, e)
    case BotViewPrivateKey(ctx) => BotJs.ViewPrivateKey(s, ctx)
    case BotViewWallet(ctx) => BotJs.ViewWallet(s, ctx)
    case BotToggleAlerts(ctx) => BotJs.ToggleAlerts(s, ctx)
    case BotText(ctx, text, e, stream) => BotJs.OnText(c, s, ctx, text, e, stream)
    case IndexStart(ctx) => IndexJs.Start(s, ctx)
    case IndexCreateAccount(ctx, e) => IndexJs.CreateAccount(c, s, ctx, e)
    case IndexImportAccount(ctx) => IndexJs.ImportAccount(s, ctx)
    case IndexText(ctx, text, e, stream) => IndexJs.OnText(c, s, ctx, text, e, stream)
  }

  /** The state after handling the updates in order. */
  function Run(c: Crypto, s: State, inputs: seq<Input>): State
    decreases |inputs|
  {
    if inputs == [] then s else Run(c, Step(c, s, inputs[0]).state, inputs[1..])
  }

  /** The updates `u` sent, in order. */
  function OwnInputs(u: UserId, inputs: seq<Input>): (own: seq<Input>)
    ensures |own| <= |inputs|
    ensures forall j :: 0 <= j < |own| ==> own[j].ctx.from == u
  {
    if inputs == [] then []
    else (if inputs[0].ctx.from == u then [inputs[0]] else []) + OwnInputs(u, inputs[1..])
  }

  /** `u`'s document and import flag are the same in both states. */
  predicate Agree(u: UserId, s1: State, s2: State) {
    SameFor(u, s1.store, s2.store) && (u in s1.awaiting <==> u in s2.awaiting)
  }

  /** Every handler keeps the store's key pairs consistent, and with a
      consistent store none of them aborts. */
  lemma StepWellFormed(c: Crypto, s: State, i: Input)
    requires Sound(c) && WellFormed(c, s.store)
    ensures WellFormed(c, Step(c, s, i).state.store)
    ensures Step(c, s, i).failure.None?
  {
    match i
    case BotToggleAlerts(ctx) =>
      var s' := Step(c, s, i).state;
      forall v | v in s'.store ensures Valid(c, KeyPair(s'.store[v])) {
        assert v in s.store && KeyPair(s'.store[v]) == KeyPair(s.store[v]);
      }
    case _ =>
  }

  lemma {:induction false} RunWellFormed(c: Crypto, s: State, inputs: seq<Input>)
    requires Sound(c) && WellFormed(c, s.store)
    ensures WellFormed(c, Run(c, s, inputs).store)
    decreases |inputs|
  {
    if inputs != [] {
      StepWellFormed(c, s, inputs[0]);
      RunWellFormed(c, Step(c, s, inputs[0]).state, inputs[1..]);
    }
  }

  /** Whatever the update, every private-key notice goes to the sender's
      own chat and carries the sender's stored key. */
  lemma KeyGoesOnlyToOwner(c: Crypto, s: State, i: Input)
    ensures KeyOnlyToOwner(i.ctx.from, s.store, Step(c, s, i).sent)
  {
  }

  /** A handler only touches its sender's document and flag. */
  lemma StepFrame(c: Crypto, s: State, i: Input, u: UserId)
    requires i.ctx.from != u
    ensures Agree(u, s, Step(c, s, i).state)
  {
    var r := Step(c, s, i).state;
    assert OnlyTouches(i.ctx.from, s, r);
    assert u in s.awaiting <==> u in s.awaiting - {i.ctx.from};
  }

  /** A handler reads only its sender's document and flag: states that
      agree on them give the same replies and agent run, and still agree
      afterwards. */
  lemma StepLocal(c: Crypto, s1: State, s2: State, i: Input)
    requires Agree(i.ctx.from, s1, s2)
    ensures var r1, r2 := Step(c, s1, i), Step(c, s2, i);
            && Agree(i.ctx.from, r1.state, r2.state)
            && r1.sent == r2.sent && r1.agent == r2.agent && r1.failure == r2.failure
  {
    var u := i.ctx.from;
    match i
    case BotStart(ctx, e) =>
      GetOrCreateLocal(c, s1.store, s2.store, u, e, EntryPoint.BotJs);
    case BotText(ctx, text, e, stream) =>
      GetOrCreateLocal(c, s1.store, s2.store, u, e, EntryPoint.BotJs);
    case IndexCreateAccount(ctx, e) =>
      GetOrCreateLocal(c, s1.store, s2.store, u, e, EntryPoint.IndexJs);
    case IndexText(ctx, text, e, stream) =>
      IndexTextLocal(c, s1, s2, ctx, text, e, stream);
    case _ =>
  }

  lemma IndexTextLocal(c: Crypto, s1: State, s2: State, ctx: Ctx, text: string, e: Entropy,
                       stream: seq<AgentStream.Chunk>)
    requires Agree(ctx.from, s1, s2)
    ensures var r1, r2 := IndexJs.OnText(c, s1, ctx, text, e, stream), IndexJs.OnText(c, s2, ctx, text, e, stream);
            && Agree(ctx.from, r1.state, r2.state)
            && r1.sent == r2.sent && r1.agent == r2.agent && r1.failure == r2.failure
  {
    var u := ctx.from;
    if u in s1.awaiting {
      if HexKey.IsHexKey(text) && c.decodes(text) {
        var account := FromPrivateKey(c, text).value;
        var before := [Outgoing(ctx.chat, AccountImported(account.publicKey))];
        var t1 := State(Upsert(s1.store, u, account), s1.awaiting - {u});
        var t2 := State(Upsert(s2.store, u, account), s2.awaiting - {u});
        assert Agree(u, t1, t2);
        GetOrCreateLocal(c, t1.store, t2.store, u, e, EntryPoint.IndexJs);
        assert IndexJs.OnText(c, s1, ctx, text, e, stream) == IndexJs.Converse(c, t1, ctx, text, e, stream, before);
        assert IndexJs.OnText(c, s2, ctx, text, e, stream) == IndexJs.Converse(c, t2, ctx, text, e, stream, before);
      }
    } else {
      GetOrCreateLocal(c, s1.store, s2.store, u, e, EntryPoint.IndexJs);
    }
  }

  /** Per-user isolation: after any interleaving of updates from any users,
      `u`'s document and import flag are exactly what `u`'s own updates
      alone would have produced. */
  lemma {:induction false} RunIsolation(c: Crypto, s1: State, s2: State, inputs: seq<Input>, u: UserId)
    requires Agree(u, s1, s2)
    ensures Agree(u, Run(c, s1, inputs), Run(c, s2, OwnInputs(u, inputs)))
    decreases |inputs|
  {
    if inputs != [] {
      var i := inputs[0];
      if i.ctx.from == u {
        assert OwnInputs(u, inputs) == [i] + OwnInputs(u, inputs[1..]);
        assert ([i] + OwnInputs(u, inputs[1..]))[1..] == OwnInputs(u, inputs[1..]);
        StepLocal(c, s1, s2, i);
        RunIsolation(c, Step(c, s1, i).state, Step(c, s2, i).state, inputs[1..], u);
      } else {
        assert OwnInputs(u, inputs) == OwnInputs(u, inputs[1..]);
        StepFrame(c, s1, i, u);
        RunIsolation(c, Step(c, s1, i).state, s2, inputs[1..], u);
      }
    }
  }

  /** Retry until valid: while `u` is awaited, any number of texts from `u`
      that are not keys leave the whole state as it was, flag included. */
  lemma {:induction false} InvalidAttemptsChangeNothing(c: Crypto, s: State, u: UserId, inputs: seq<Input>)
    requires u in s.awaiting
    requires forall j :: 0 <= j < |inputs| ==>
               inputs[j].IndexText? && inputs[j].ctx.from == u && !HexKey.IsHexKey(inputs[j].text)
    ensures Run(c, s, inputs) == s
    decreases |inputs|
  {
    if inputs != [] {
      assert Step(c, s, inputs[0]).state == s;
      InvalidAttemptsChangeNothing(c, s, u, inputs[1..]);
    }
  }
}

=== FILE: telegram.dfy ===
/** What a handler sees of an update and what it sends back, with all
    text formatting and keyboards reduced to one constructor per reply. */
module Telegram {
  import opened Accounts

  /** Telegram chat id, printed as a string; a user's private chat has the
      user's own id. */
  type ChatId = string

  /** The sender and the chat an update arrived in. */
  datatype Ctx = Ctx(from: UserId, chat: ChatId)

  datatype Reply =
    | Welcome(address: string)          // bot.js `start`, with the settings button
    | AccountMenu                       // index.js `start`: create or import
    | AccountCreated(address: string)
    | ImportPrompt
    | InvalidKeyFormat
    | AccountImported(address: string)
    | PrivateKeyNotice(privateKey: string)
    | NoPrivateKey
    | WalletAddress(address: string)
    | NoWallet
    | NoAccount
    | AlertsChanged(enabled: bool)
    | AgentText(text: string)

  datatype Outgoing = Outgoing(chat: ChatId, reply: Reply)

  /** Whether a message is a private-key notice. */
  predicate RevealsKey(m: Outgoing) {
    m.reply.PrivateKeyNotice?
  }

  /** Every agent text, in order, as replies to `chat`. */
  function AgentReplies(chat: ChatId, texts: seq<string>): (out: seq<Outgoing>)
    ensures |out| == |texts|
    ensures forall j :: 0 <= j < |out| ==> out[j] == Outgoing(chat, AgentText(texts[j]))
  {
    if texts == [] then [] else [Outgoing(chat, AgentText(texts[0]))] + AgentReplies(chat, texts[1..])
  }
}

=== FILE: wrappers.dfy ===
/** Failure-compatible wrappers used by the handlers: a missing value and a
    result that is either a value or an error. */
module Wrappers {

  datatype Option<+T> = None | Some(value: T)

  datatype Result<+R, +E> = Success(value: R) | Failure(error: E)
}
